=== FILE: README.md ===
# Serializer application: input validation, record sets and display output

A Dafny model of the pure logic of a small Python 2 command-line tool. The tool takes shot information: a sequence, a shot, a frame count and an artist. That information comes either from the command line or from a CSV file. The tool assembles it into a list of ordered records, serializes the list, and writes two display files: an HTML page and a text report.

The model covers three parts of the tool:

- **Path checks** (`scripts/common.py`), in module `Common`.
  - `validate_file_path` runs three checks in order: missing path, extension suffix, existence. The existence check asks the filesystem, which the model passes in as an oracle.
  - `readCsv` returns early when the path fails that check.
- **Input side** (`scripts/parser.py`), in module `Parser`.
  - `UserInputs.validate` decides which fields enter the information mapping and whether template mode is forced. It also decides which CSV file, if any, becomes its `filePath` entry.
  - `validate_int` and `validate_string` are the field checks.
  - `build_data_container` turns a mapping, or the rows of its CSV file, into a record set.
  - `build_context` picks the mapping to build from.
- **Display side** (`scripts/display_output.py`), in module `Display`.
  - The two `convert_data2string` renderers are methods that follow the source loops. Each is proved equal to a structured description of its output: a table for HTML, a list of lines for text.
  - `export` picks the target path, checks its extension and produces the file contents.
  - `export_path` is the default target.

Supporting modules:

- `Records` models `OrderedDict`.
  - Assigning an existing key keeps that key's position.
  - `OrderedDict(pairs)` keeps the first position and the last value of a repeated key.
  - `zip` truncates to the shorter input.
- `Strings` models `str.endswith`, `str(int)` and `str.isdigit`.
- `Config` models `posixpath.join` and the `TEMPLATE_DATABASE`, `OUTPUT_DIRECTORY` and `OUTPUT_FILE_NAME` constants of `config.py`.
- `Wrappers` holds `Option` and `Result`.

External effects become parameters:

- The filesystem is `Disk`. `isFile` answers `os.path.isfile`. `opens` says whether `open(path, "r")` succeeds; it is a separate answer, because a regular file can be unreadable or removed before it is opened, and `/dev/null` opens without being a regular file. `rows` gives what the CSV reader yields for a file.
- The package directory is `Config.packageDirectory`.
- Writing a file is returned as an `Artifact` value: a path and its contents.

## Model

| member | source | states |
|---|---|---|
| Common.CheckFilePath | scripts/common.py:28-51 | A missing or empty path is `NoPath`. Otherwise a wrong suffix is `WrongFileType`; the suffix test is `Strings.EndsWith`, an exact `str.endswith`. Otherwise, only when existence is checked, a path that is not a file is `FileNotFound`. The first failing check decides the verdict. |
| Common.ValidateFilePath | scripts/common.py:28-51 | The boolean is true exactly when the path is given, ends with the extension (if one is given), and exists (if existence is checked). |
| Common.ExistenceCheckComesLast | scripts/common.py:46-51 | Turning the existence check on never changes a rejection. It turns an acceptance into `FileNotFound` exactly when the file does not exist. |
| Common.ExtensionIsCaseSensitive | scripts/common.py:41-44 | The suffix test is exact: `shots.CSV` is rejected as a `.csv` path. |
| Common.ReadCsv | scripts/common.py:15-25 | A missing or empty path yields no rows. Any other path is opened without asking whether it is a regular file: when `open` fails the read fails, otherwise the file's rows are returned. |
| Config.Join | config.py:17-19 | `posixpath.join`: a name that is not absolute keeps the directory as the prefix of the path, and the path is at most one separator longer than the two parts. |
| Config.OutputDirectory | config.py:19 | The output directory starts with the package directory and ends with `output_files`. |
| Config.JoinEndsWithName | config.py:17-19 | A path joined onto a directory ends with the joined name. |
| Config.TemplateDatabase | config.py:17 | The template database path ends in `.csv`. |
| Strings.IntToString | scripts/parser.py:109 | `str(i)` is never empty. It starts with a minus sign exactly when `i` is negative, and every other character is a decimal digit. |
| Strings.IntToStringIsDigits | scripts/parser.py:108-109 | `str(i).isdigit()` holds exactly when `i >= 0`. |
| Strings.NatToStringRoundTrip | scripts/display_output.py:176 | The decimal count written into the output reads back as the same number. |
| Strings.IntToStringRoundTrip | scripts/display_output.py:107 | An integer value written with `%s` reads back as the same integer, sign included. |
| Records.Lookup | scripts/parser.py:120 | `get` finds nothing exactly when the key is not among the record's keys. |
| Records.LookupAt | scripts/parser.py:120 | In a mapping, `get` of the key at position `i` returns the value at position `i`. |
| Records.Put | scripts/parser.py:71 | Assigning an existing key keeps the key order. Assigning a new key appends it at the end. |
| Records.PutLookup | scripts/parser.py:71 | After `d[k] = v`, `k` reads `v` and every other key reads as before. |
| Records.FromPairs | scripts/parser.py:130 | `OrderedDict(pairs)` never repeats a key. Its keys are the pair keys in order of first occurrence. |
| Records.FromPairsLookup | scripts/parser.py:130 | Each key of `OrderedDict(pairs)` holds the value of the last pair with that key. |
| Records.FromPairsOfMapping | scripts/parser.py:133 | Copying a mapping with `OrderedDict` leaves it unchanged. |
| Records.Zip | scripts/parser.py:130 | `zip` pairs names and cells by position and stops at the shorter sequence. |
| Parser.ValidateString | scripts/parser.py:111-112 | `validate_string` accepts exactly a present, non-empty string. |
| Parser.ValidateInt | scripts/parser.py:108-109 | `validate_int` accepts exactly a present, non-negative integer. `None` is rejected because `str(None)` is `"None"`. |
| Parser.AllFieldsGiven | scripts/parser.py:66 | When all four fields are given, the three string fields pass `validate_string`. When the three strings pass `validate_string` and a frame count is present, the `all` test passes exactly when the count is not 0, so a negative count passes it. When the `all` test passes, `validate_int` accepts exactly a positive count, so a negative count then fails `validate_int`. |
| Parser.TemplateMode | scripts/parser.py:66-68 | Outside template mode, the three string fields pass their checks and a frame count is present. Asking for the template always gives template mode. With all four fields given and no template requested, template mode is off. |
| Parser.ExternalFileAsWritten | scripts/parser.py:82-87 | As written, the only error is the `AttributeError` for `externalFilePath`, and the only file ever chosen is the template database, so a user's file is never read. |
| Parser.ExternalFile | scripts/parser.py:82-87 | When a file is chosen, its path is never empty. This is the corrected decision; see Findings. |
| Parser.TemplateTakesPrecedence | scripts/parser.py:66-87 | In template mode the user's external file is ignored. A missing field forces template mode even when the user did not ask for it. |
| Parser.ExternalFileAsWrittenRaises | scripts/parser.py:82-87 | As written, the decision raises `AttributeError` exactly when all four fields are given, the template is not requested and a file is named. In every other case it agrees with the corrected decision. |
| Parser.ExternalFileAsWrittenExample | scripts/parser.py:87 | One concrete command line that raises as written. The corrected decision uses the named file for it. |
| Parser.UserFileIsUsed | scripts/parser.py:86-92 | With the correction, an existing user `.csv` file named alongside all four fields becomes the `filePath` entry. |
| Parser.Validate | scripts/parser.py:57-96 | sequence, shot and artist enter exactly when non-empty. frames enters exactly when it is a non-negative integer. `filePath` enters exactly when the chosen file ends in `.csv` and `os.path.isfile` accepts it. The mapping is built by `OrderedDict` assignments (`PutAll`). No key repeats. This is `validate` with line 87 corrected (see Findings). As written, `validate` raises exactly where `ExternalFileAsWrittenRaises` says. |
| Parser.StringEntry | scripts/parser.py:70-80 | The guard `if validate_string(...)`: a string field contributes its value exactly when it is present and non-empty. |
| Parser.FramesEntry | scripts/parser.py:76-77 | The guard `if validate_int(...)`: the frame count contributes its value exactly when it is a present, non-negative integer. |
| Parser.FileEntry | scripts/parser.py:89-92 | `filePath` is set only for a chosen path that ends in `.csv` and that `os.path.isfile` accepts. |
| Parser.PutAll | scripts/parser.py:70-92 | The conditional `information[k] = v` assignments keep the keys already present in place, and keep a mapping free of repeated keys. |
| Parser.PutAllAssigned | scripts/parser.py:64-92 | When the candidate keys are distinct and not yet in the mapping, the conditional `information[k] = v` assignments append exactly the accepted fields, in candidate order. |
| Parser.ValidateKeyOrder | scripts/parser.py:64-92 | The keys are exactly the accepted fields, in the fixed order sequence, shot, frames, artist, filePath. |
| Parser.AssignedLookup | scripts/parser.py:70-92 | Under distinct candidate keys, each candidate key reads back the value of its check, or nothing. |
| Parser.AssignedKeys | scripts/parser.py:70-92 | The conditional assignments produce exactly the accepted keys, in candidate order. |
| Parser.AssignedUnique | scripts/parser.py:70-92 | The conditional assignments never repeat a key. |
| Parser.BuildDataContainer | scripts/parser.py:114-135 | With no truthy `filePath`, the result is the mapping alone. A path `open` refuses fails with `CannotOpen`. An opened file without rows gives an empty list. Otherwise there is one record per row after the header, each `OrderedDict(zip(header, row))`. |
| Parser.RowsToRecords | scripts/parser.py:128-131 | There is one record per data row, and no record repeats a key, even when the header repeats a name. |
| Parser.CsvRecordShape | scripts/parser.py:128-131 | With a header that repeats no name, record `i` pairs header `j` with cell `j` of row `i+1`, truncated to the shorter of the two. |
| Parser.ChosenInformation | scripts/parser.py:102 | `information or self._information or self.validate()`: the result is empty exactly when all three are empty. A non-empty given mapping wins, and the result is always one of the three. |
| Parser.BuildContext | scripts/parser.py:98-106 | The result is `None` exactly when the given, stored and validated mappings are all empty. Otherwise the first non-empty one is built into a record set, or its read error is passed on. |
| Parser.ValidatedInformationIsReadable | scripts/parser.py:89-124 | A `filePath` that `validate` returns names a path `os.path.isfile` accepted, and building from the mapping fails exactly when `open` then refuses that path. Without `filePath`, the result is that mapping alone. |
| Parser.SingleMappingExample | unit_test.py:20-27 | The test's shot mapping becomes a one-element record set holding it. |
| Parser.CsvExample | scripts/parser.py:122-131 | A CSV file with a header and one data row yields one record of string values in header order. |
| Display.Mappings | scripts/display_output.py:106 | `OrderedDict(each_info)` for every record: one mapping per record, without repeated keys, listing the record's keys in order of first occurrence. |
| Display.Show | scripts/display_output.py:107 | A string value is shown as it is. An integer is shown in decimal that reads back as the integer. The shown integer is all digits exactly when it is non-negative. |
| Display.RecordCells | scripts/display_output.py:106-110 | The inner loop appends one data cell per field of the record. It appends one header cell per field only while the header has not been written. |
| Display.HtmlCells | scripts/display_output.py:101-112 | The loop leaves the header string holding one header cell per key of the first record, and the data string holding one row per record with one data cell per field. |
| Display.HtmlConvert | scripts/display_output.py:95-133 | The HTML string is the template filled with the record count, the header cells and the body pieces of the record set's table. |
| Display.HtmlTableOfMappings | scripts/display_output.py:103-111 | For records with unique keys, the header is exactly the first record's keys in its order, and row `i` shows record `i`'s values in its order. |
| Display.HtmlTableRectangular | scripts/display_output.py:104-112 | When all records share the first record's keys, every row has as many cells as the header. |
| Display.ParseBodyRoundTrip | scripts/display_output.py:104-112 | The list of body pieces reads back as the table's rows: one row opening per row, then one data cell per value. |
| Display.HtmlPage | scripts/display_output.py:104-133 | The caption count is the number of records. The list of body pieces reads back as one row per record. Row `i` has one cell per field of record `i`. |
| Display.HtmlEmpty | scripts/display_output.py:99-133 | With no records, the header and body are empty and the count is 0. |
| Display.TextConvert | scripts/display_output.py:168-184 | The text is the banner, the count line and a rule, then per record its field lines, a blank line and a rule. |
| Display.RecordText | scripts/display_output.py:180-183 | One record appends its field lines, then a blank line and a rule, to the report written so far. |
| Display.TextRuleCount | scripts/display_output.py:177-183 | The report holds one more rule line than there are records. |
| Display.TextRoundTrip | scripts/display_output.py:174-184 | The report's lines read back to the record count and every record's fields with their shown values, in order. A record with unique keys reads back as exactly its own fields. |
| Display.ExportFileName | scripts/display_output.py:93 | The export file name ends with the format's extension. |
| Display.ExportPath | scripts/display_output.py:73-80 | The default export path lies in the output directory: it starts with `OUTPUT_DIRECTORY` and ends with the export file name, and so with the format's extension. |
| Display.Convert | scripts/display_output.py:95-99 | A non-empty `data` argument is rendered. Otherwise the stored context is rendered. A context of `None` raises `TypeError`. |
| Display.Export | scripts/display_output.py:135-151 | The target is `filePath`, or the export path when none is given. The result is `None` exactly when the target lacks the extension. Otherwise the file holds `data` when given, else the rendered context, at the target path. With no `filePath` the export never returns `None`. |

## Left out

- Serialization (`scripts/encoder.py`). It wraps the `json` and `pickle` libraries, whose behaviour is outside the model, so its round trip is not stated.
- Class registries and the metaclass that fills them (`display_output.py:17-45`, `encoder.py`). They are side effects at class-definition time.
- `get_supported_output_formats` (`serialization_app.py:60`). It uses `raise` on the registry dict instead of returning it; in Python 2 that raises `TypeError`, because a dict is not an exception.
- The `Exporter.convert_data2string`/`export` stubs. They `raise NotImplemented`, which in Python 2 raises `TypeError`, because `NotImplemented` is not an exception.
- Console output (`io`), `view_file` and the browser: I/O only.
- Directory creation in `config.py` (file system side effect).
- `SERIALIZE_FILE_NAME` (`config.py:21`). Only the serializers use it, and they are left out.
- Argument parsing (`get_args`) and the `SerializerApp` driver. These are orchestration; argparse defaults are assumed applied in `Parser.Inputs`.
- What the CSV module parses from a file's bytes. `Disk.rows` stands for it.
- Parsing the rendered strings back. The round trips are stated on the list of HTML body pieces and on the report's lines. The rendered text itself does not read back in general: a value that contains the cell markup, or a newline followed by the rule, changes what a reader of the output recovers.
- Opening or writing an output file that fails. `Export` returns the artifact it would write.
- Parser.Validate: the mutation `inputs.useTemplateData = True` and the copy into `self._information` are not modelled as state. Template mode is computed instead, and `BuildContext` takes the stored mapping as a parameter.
- Parser.BuildContext: `self.validate()` is evaluated lazily in the source. The model takes its result as a value parameter, which cannot express two things the call does: it parses the command line with argparse, and as written it can raise `AttributeError` at `parser.py:87` (see Findings). Both are left out of `BuildContext`.
- Parser.BuildDataContainer: an integer `filePath` is reported as `NotAPath`. In the source, `open` raises `TypeError` on it.
- Display.Show: Python 2 unicode values and other Python types are not modelled. Values are strings or integers.
- Record order inside the test's plain `dict` (`unit_test.py:22`) follows Python 2 hashing. The model takes the order as written.

## Findings

| source | as written | input that shows it | evidently intended | confidence | as-written member | corrected member |
|---|---|---|---|---|---|---|
| scripts/parser.py:87 | the user's file is read from `inputs.externalFilePath`, an attribute the parsed arguments do not have, so `validate` raises `AttributeError` | `-seq A20 -shot sh500 -frame 167 -artist Josh --external_file shots.csv` without `-use_template` | use `inputs.external_file`, the path just tested on line 86 | not executed | Parser.ExternalFileAsWritten (exhibited by Parser.ExternalFileAsWrittenExample and Parser.ExternalFileAsWrittenRaises) | Parser.ExternalFile (with Parser.UserFileIsUsed and Parser.Validate) |

=== FILE: common.dfy ===
/**
 * The path checks of `scripts/common.py`: `validate_file_path` and the
 * guard at the start of `readCsv`. The filesystem is an oracle: `isFile`
 * says which paths name existing regular files (`os.path.isfile`), `opens`
 * which paths `open(path, "r")` succeeds on, and `rows` stands for what the
 * CSV reader yields for a file.
 */
module Common {
  import opened Wrappers
  import opened Strings

  type Row = seq<string>

  /** Python truthiness of an optional string: present and non-empty. */
  predicate Given(o: Option<string>) {
    o.Some? && o.value != ""
  }

  /** Whether `validate_file_path` asks the filesystem (`check_existence`). */
  datatype ExistenceCheck = Skip | Against(isFile: string -> bool)

  /** Which check a path failed, or `Accepted`. Each failure logs a warning in the source. */
  datatype PathVerdict = Accepted | NoPath | WrongFileType | FileNotFound

  /**
   * `validate_file_path(path, ext, check_existence)`: the checks run in the
   * order missing path, extension, existence, and the first one that fails
   * decides the verdict.
   */
  function CheckFilePath(path: Option<string>, ext: Option<string>, existence: ExistenceCheck): (v: PathVerdict)
    ensures v == NoPath <==> !Given(path)
    ensures v == WrongFileType <==> Given(path) && Given(ext) && !EndsWith(path.value, ext.value)
    ensures v == FileNotFound <==>
      Given(path) && (Given(ext) ==> EndsWith(path.value, ext.value))
      && existence.Against? && !existence.isFile(path.value)
  {
    if !Given(path) then NoPath
    else if Given(ext) && !EndsWith(path.value, ext.value) then WrongFileType
    else if existence.Against? && !existence.isFile(path.value) then FileNotFound
    else Accepted
  }

  /** The boolean `validate_file_path` returns. */
  function ValidateFilePath(path: Option<string>, ext: Option<string>, existence: ExistenceCheck): (ok: bool)
    ensures ok <==>
      Given(path) && (Given(ext) ==> EndsWith(path.value, ext.value))
      && (existence.Against? ==> existence.isFile(path.value))
  {
    CheckFilePath(path, ext, existence) == Accepted
  }

  /**
   * Asking the filesystem can only turn an acceptance into `FileNotFound`:
   * a path rejected without the existence check is rejected for the same
   * reason with it, whatever the filesystem holds.
   */
  lemma ExistenceCheckComesLast(path: Option<string>, ext: Option<string>, isFile: string -> bool)
    ensures CheckFilePath(path, ext, Skip) != Accepted ==>
      CheckFilePath(path, ext, Against(isFile)) == CheckFilePath(path, ext, Skip)
    ensures CheckFilePath(path, ext, Skip) == Accepted ==>
      CheckFilePath(path, ext, Against(isFile)) == (if isFile(path.value) then Accepted else FileNotFound)
  {
  }

  /** The extension test is case-sensitive: `shots.CSV` is not a `.csv` path. */
  lemma ExtensionIsCaseSensitive()
    ensures CheckFilePath(Some("shots.CSV"), Some(".csv"), Skip) == WrongFileType
  {
    assert "shots.CSV"[5..] != ".csv" by { assert "shots.CSV"[5..][1] == 'C'; }
  }

  /**
   * The filesystem as the program sees it. `isFile` and `opens` are separate
   * answers: a regular file may be unreadable or gone by the time it is
   * opened, and a path such as `/dev/null` opens without being a regular file.
   */
  datatype Disk = Disk(isFile: string -> bool, opens: string -> bool, rows: string -> seq<Row>)

  /** What opening a file for reading raises. */
  datatype ReadError = CannotOpen(path: string) | NotAPath

  /**
   * `list(readCsv(path))`: a missing or empty path yields no rows; any other
   * path is opened without asking whether it is a regular file, which raises
   * when `open` fails.
   */
  function ReadCsv(disk: Disk, path: Option<string>): (r: Result<seq<Row>, ReadError>)
    ensures !Given(path) ==> r == Success([])
    ensures Given(path) && disk.opens(path.value) ==> r == Success(disk.rows(path.value))
    ensures Given(path) && !disk.opens(path.value) ==> r == Failure(CannotOpen(path.value))
  {
    if !ValidateFilePath(path, None, Skip) then Success([])
    else if !disk.opens(path.value) then Failure(CannotOpen(path.value))
    else Success(disk.rows(path.value))
  }
}

=== FILE: config.dfy ===
/**
 * The configuration constants of `config.py` and the `os.path.join` they
 * are built with. The package directory is where the program is installed,
 * which the model takes as a parameter.
 */
module Config {
  import opened Strings

  /** Where the package lives (`os.path.dirname(__file__)`). */
  datatype Config = Config(packageDirectory: string)

  const OutputFileName: string := "display_output"

  /**
   * `posixpath.join(a, b)`: an absolute `b` replaces `a`; otherwise `b` is
   * appended, with a `/` in between unless `a` is empty or already ends in one.
   */
  function Join(a: string, b: string): (j: string)
    ensures !(|b| > 0 && b[0] == '/') ==> |a| <= |j| && j[..|a|] == a
    ensures |j| <= |a| + 1 + |b|
  {
    if |b| > 0 && b[0] == '/' then b
    else if a == "" || EndsWith(a, "/") then a + b
    else a + "/" + b
  }

  /** Whatever directory it is joined to, the joined path ends with the name. */
  lemma JoinEndsWithName(a: string, b: string)
    ensures EndsWith(Join(a, b), b)
  {
    var p := Join(a, b);
    if !(|b| > 0 && b[0] == '/') {
      if a == "" || EndsWith(a, "/") {
        assert p[|p| - |b|..] == b;
      } else {
        assert p == (a + "/") + b;
        assert p[|p| - |b|..] == b;
      }
    }
  }

  /** A suffix of a suffix is a suffix. */
  lemma EndsWithTrans(s: string, t: string, u: string)
    requires EndsWith(s, t) && EndsWith(t, u)
    ensures EndsWith(s, u)
  {
    assert s[|s| - |u|..] == t[|t| - |u|..];
  }

  /** `TEMPLATE_DATABASE`: the CSV file used in template mode. */
  function TemplateDatabase(c: Config): (p: string)
    ensures EndsWith(p, ".csv")
  {
    var p := Join(c.packageDirectory, "database/default_template_database.csv");
    JoinEndsWithName(c.packageDirectory, "database/default_template_database.csv");
    EndsWithTrans(p, "database/default_template_database.csv", ".csv");
    p
  }

  /** `OUTPUT_DIRECTORY`: the `output_files` directory inside the package directory. */
  function OutputDirectory(c: Config): (d: string)
    ensures |c.packageDirectory| <= |d| && d[..|c.packageDirectory|] == c.packageDirectory
    ensures EndsWith(d, "output_files")
  {
    JoinEndsWithName(c.packageDirectory, "output_files");
    Join(c.packageDirectory, "output_files")
  }
}

=== FILE: display.dfy ===
/**
 * The display exporters of `scripts/display_output.py`: the HTML page and
 * the text report built from a record set, and the export step that picks
 * the target path, checks its extension and produces the file contents.
 *
 * Each renderer is an imperative method that follows the source loop; its
 * postcondition ties the string it builds to a structured description of
 * the output (a table for HTML, a list of lines for text), and the lemmas
 * state what those descriptions hold.
 */
module Display {
  import opened Wrappers
  import opened Records
  import opened Strings
  import opened Config
  import opened Common
  import opened Seqs

  /** `"%s" % value`: a string as it is, an integer in decimal. */
  function Show(v: Value): (s: string)
    ensures v.Str? ==> s == v.s
    ensures v.Int? ==> IntValue(s) == v.i && (IsDigits(s) <==> v.i >= 0)
  {
    match v
    case Str(t) => t
    case Int(i) =>
      IntToStringRoundTrip(i);
      IntToStringIsDigits(i);
      IntToString(i)
  }

  /** The shown values of a record, in field order. */
  function Shown(r: Record): (ts: seq<string>)
    ensures |ts| == |r|
    ensures forall j :: 0 <= j < |r| ==> ts[j] == Show(r[j].1)
  {
    seq(|r|, j requires 0 <= j < |r| => Show(r[j].1))
  }

  /** The strings joined in order. */
  function Concat(ss: seq<string>): string {
    if |ss| == 0 then "" else Concat(ss[..|ss| - 1]) + ss[|ss| - 1]
  }

  /** Joining one more string at the end. */
  lemma ConcatPush(ss: seq<string>, x: string)
    ensures Concat(ss + [x]) == Concat(ss) + x
  {
    assert (ss + [x])[..|ss|] == ss;
  }

  /** Each record as `OrderedDict(each_info)` reads it. */
  function Mappings(information: RecordSet): (rs: RecordSet)
    ensures |rs| == |information|
    ensures forall i :: 0 <= i < |information| ==> rs[i] == FromPairs(information[i])
    ensures forall i :: 0 <= i < |information| ==>
      UniqueKeys(rs[i]) && Keys(rs[i]) == Distinct(Keys(information[i]))
  {
    seq(|information|, i requires 0 <= i < |information| => FromPairs(information[i]))
  }

  // ---------------------------------------------------------------- HTML

  /** What the HTML page shows: the entry count, the header cells and one row of cells per record. */
  datatype Table = Table(total: nat, head: seq<string>, rows: seq<seq<string>>)

  /** The shown values of each record. */
  function ShownRows(rs: RecordSet): (rows: seq<seq<string>>)
    ensures |rows| == |rs| && forall i :: 0 <= i < |rs| ==> rows[i] == Shown(rs[i])
  {
    seq(|rs|, i requires 0 <= i < |rs| => Shown(rs[i]))
  }

  /**
   * The table of a record set: each record is read through `OrderedDict`,
   * the header names the fields of the FIRST record only, and each row
   * shows the values of its record.
   */
  function HtmlTable(information: RecordSet): Table {
    var rs := Mappings(information);
    Table(|information|, if |rs| == 0 then [] else Keys(rs[0]), ShownRows(rs))
  }

  const HtmlTop: string :=
    "\n<!DOCTYPE html>\n<html>\n<head>\n<title>Serialized data in HTML display</title>\n</head>\n<body>\n"
    + "<table border=1, style=\"width:60%\", align=\"center\">\n"
    + "<caption style=\"color:red\"><B>Output in HTML Format - Total Entries : "
  const HeadOpen: string := "</B></caption>\n    <tr>\n        "
  const HeadClose: string := "\n    </tr>\n     <indent>\n"
  const HtmlBottom: string := "\n     </indent>\n</table>\n</body>\n</html>\n"
  const RowOpen: string := "\t\t<tr>\n\t\t\t"
  const RowClose: string := "\n\t\t</tr>\n"

  function HeadCell(name: string): string {
    "<th> " + name + " </th>\n\t\t"
  }

  const CellOpen: string := "<td align='center'> "
  const CellClose: string := " </td>\n\t\t\t"

  function DataCell(text: string): string {
    CellOpen + text + CellClose
  }

  function HeadCells(names: seq<string>): (cs: seq<string>)
    ensures |cs| == |names| && forall j :: 0 <= j < |names| ==> cs[j] == HeadCell(names[j])
  {
    seq(|names|, j requires 0 <= j < |names| => HeadCell(names[j]))
  }

  function DataCells(texts: seq<string>): (cs: seq<string>)
    ensures |cs| == |texts| && forall j :: 0 <= j < |texts| ==> cs[j] == DataCell(texts[j])
  {
    seq(|texts|, j requires 0 <= j < |texts| => DataCell(texts[j]))
  }

  /** The pieces of the table body: per row, its opening tag, its cells and its closing tag. */
  function BodyPieces(rows: seq<seq<string>>): seq<string> {
    if |rows| == 0 then []
    else BodyPieces(rows[..|rows| - 1]) + [RowOpen] + DataCells(rows[|rows| - 1]) + [RowClose]
  }

  /** The page text of a table: the template with the count, header cells and rows filled in. */
  function RenderTable(t: Table): string {
    HtmlTop + NatToString(t.total) + HeadOpen + Concat(HeadCells(t.head)) + HeadClose
    + Concat(BodyPieces(t.rows)) + HtmlBottom
  }

  /**
   * The inner loop of `HtmlExporter.convert_data2string` for one record:
   * a data cell per field, and a header cell per field while the header
   * has not been written. `pieces` and `headPieces` are the strings the
   * two accumulators were built from so far.
   */
  method RecordCells(each: Record, headerUpdated: bool, data: string, head: string,
                     ghost pieces: seq<string>, ghost headPieces: seq<string>)
    returns (data': string, head': string)
    requires data == Concat(pieces) && head == Concat(headPieces)
    ensures data' == Concat(pieces + DataCells(Shown(each)))
    ensures head' == Concat(if headerUpdated then headPieces else headPieces + HeadCells(Keys(each)))
  {
    data', head' := data, head;
    ghost var ps, hs := pieces, headPieces;
    for j := 0 to |each|
      invariant data' == Concat(ps) && head' == Concat(hs)
      invariant ps == pieces + DataCells(Shown(each))[..j]
      invariant hs == if headerUpdated then headPieces else headPieces + HeadCells(Keys(each))[..j]
    {
      var cell := DataCell(Show(each[j].1));
      ConcatPush(ps, cell);
      PushSlice(pieces, DataCells(Shown(each)), j);
      data', ps := data' + cell, ps + [cell];
      if headerUpdated {
        continue;
      }
      var th := HeadCell(each[j].0);
      ConcatPush(hs, th);
      PushSlice(headPieces, HeadCells(Keys(each)), j);
      head', hs := head' + th, hs + [th];
    }
    SliceAll(pieces, DataCells(Shown(each)));
    SliceAll(headPieces, HeadCells(Keys(each)));
  }

  /**
   * `HtmlExporter.convert_data2string`: the loop writes one row per record
   * and, until the first record is done, one header cell per field.
   */
  method HtmlConvert(information: RecordSet) returns (s: string)
    ensures s == RenderTable(HtmlTable(information))
  {
    var head, data := HtmlCells(information);
    s := HtmlTop + NatToString(|information|) + HeadOpen + head + HeadClose + data + HtmlBottom;
  }

  /**
   * The loop of `HtmlExporter.convert_data2string`: the header cells of the
   * first record and the rows of all records, as the two strings it builds.
   */
  method HtmlCells(information: RecordSet) returns (head: string, data: string)
    ensures head == Concat(HeadCells(HtmlTable(information).head))
    ensures data == Concat(BodyPieces(HtmlTable(information).rows))
  {
    ghost var table := HtmlTable(information);
    head := "";
    data := "";
    var headerUpdated := false;
    ghost var pieces: seq<string> := [];
    ghost var headPieces: seq<string> := [];
    for i := 0 to |information|
      invariant headerUpdated <==> i > 0
      invariant head == Concat(headPieces) && data == Concat(pieces)
      invariant headPieces == if i == 0 then [] else HeadCells(table.head)
      invariant pieces == BodyPieces(table.rows[..i])
    {
      var each := FromPairs(information[i]);
      ConcatPush(pieces, RowOpen);
      data, pieces := data + RowOpen, pieces + [RowOpen];
      data, head := RecordCells(each, headerUpdated, data, head, pieces, headPieces);
      pieces := pieces + DataCells(Shown(each));
      NextHeadPieces(information, i, headPieces, headerUpdated);
      headPieces := if headerUpdated then headPieces else headPieces + HeadCells(Keys(each));
      headerUpdated := true;
      ConcatPush(pieces, RowClose);
      data, pieces := data + RowClose, pieces + [RowClose];
      NextBodyPieces(information, i);
    }
    LastBodyPieces(information);
    if |information| == 0 {
      assert HeadCells(table.head) == [];
    }
  }

  /** After record `i`, the header cells are those of the first record. */
  lemma NextHeadPieces(information: RecordSet, i: int, headPieces: seq<string>, headerUpdated: bool)
    requires 0 <= i < |information|
    requires headerUpdated <==> i > 0
    requires headPieces == if i == 0 then [] else HeadCells(HtmlTable(information).head)
    ensures (if headerUpdated then headPieces else headPieces + HeadCells(Keys(FromPairs(information[i]))))
      == HeadCells(HtmlTable(information).head)
  {
    if i == 0 {
      assert [] + HeadCells(Keys(FromPairs(information[0]))) == HeadCells(Keys(FromPairs(information[0])));
    }
  }

  /** The body pieces of one more row. */
  lemma NextBodyPieces(information: RecordSet, i: int)
    requires 0 <= i < |information|
    ensures var rows := HtmlTable(information).rows;
      BodyPieces(rows[..i + 1])
        == BodyPieces(rows[..i]) + [RowOpen] + DataCells(Shown(FromPairs(information[i]))) + [RowClose]
  {
    SlicePrefix(HtmlTable(information).rows, i);
  }

  lemma LastBodyPieces(information: RecordSet)
    ensures var rows := HtmlTable(information).rows;
      BodyPieces(rows[..|information|]) == BodyPieces(rows)
  {
    var rows := HtmlTable(information).rows;
    assert rows[..|information|] == rows;
  }

  /**
   * For record sets of mappings (no key repeats, as every record the parser
   * builds), the header lists the first record's keys and row i shows the
   * values of record i, in order.
   */
  lemma HtmlTableOfMappings(information: RecordSet)
    requires forall i :: 0 <= i < |information| ==> UniqueKeys(information[i])
    ensures var t := HtmlTable(information);
      && (|information| > 0 ==> t.head == Keys(information[0]))
      && forall i :: 0 <= i < |information| ==> t.rows[i] == Shown(information[i])
  {
    forall i | 0 <= i < |information| ensures FromPairs(information[i]) == information[i] {
      FromPairsOfMapping(information[i]);
    }
  }

  /** The text of a data cell piece, or `None` for any other piece. */
  function CellText(piece: string): Option<string> {
    if |piece| >= |CellOpen| + |CellClose| && piece[..|CellOpen|] == CellOpen
       && piece[|piece| - |CellClose|..] == CellClose
    then Some(piece[|CellOpen|..|piece| - |CellClose|])
    else None
  }

  lemma CellTextOfCell(text: string)
    ensures CellText(DataCell(text)) == Some(text)
  {
    var p := DataCell(text);
    assert p[..|CellOpen|] == CellOpen;
    assert p[|p| - |CellClose|..] == CellClose;
    assert p[|CellOpen|..|p| - |CellClose|] == text;
  }

  /** The data cells at the end of a run of pieces, and the pieces before them. */
  function TrailingCells(ps: seq<string>): (res: (seq<string>, seq<string>))
    ensures |res.1| <= |ps|
  {
    if |ps| == 0 || CellText(ps[|ps| - 1]).None? then ([], ps)
    else
      var (cells, rest) := TrailingCells(ps[..|ps| - 1]);
      (cells + [CellText(ps[|ps| - 1]).value], rest)
  }

  /** Reads table rows back from body pieces: each row an opening tag, cells and a closing tag. */
  function ParseBody(ps: seq<string>): Option<seq<seq<string>>>
    decreases |ps|
  {
    if |ps| == 0 then Some([])
    else if ps[|ps| - 1] != RowClose then None
    else
      var (cells, rest) := TrailingCells(ps[..|ps| - 1]);
      if |rest| == 0 || rest[|rest| - 1] != RowOpen then None
      else
        match ParseBody(rest[..|rest| - 1])
        case None => None
        case Some(rows) => Some(rows + [cells])
  }

  lemma {:induction false} TrailingCellsOfRow(before: seq<string>, cells: seq<string>)
    ensures TrailingCells(before + [RowOpen] + DataCells(cells)) == (cells, before + [RowOpen])
  {
    var ps := before + [RowOpen] + DataCells(cells);
    if |cells| == 0 {
      assert ps == before + [RowOpen];
      assert CellText(RowOpen).None?;
    } else {
      var init := cells[..|cells| - 1];
      assert DataCells(cells) == DataCells(init) + [DataCell(cells[|cells| - 1])];
      assert ps[..|ps| - 1] == before + [RowOpen] + DataCells(init);
      CellTextOfCell(cells[|cells| - 1]);
      TrailingCellsOfRow(before, init);
      assert init + [cells[|cells| - 1]] == cells;
    }
  }

  /**
   * The table body reads back as its rows: one opening tag per row and
   * one data cell per value of that row, in order.
   */
  lemma {:induction false} ParseBodyRoundTrip(rows: seq<seq<string>>)
    ensures ParseBody(BodyPieces(rows)) == Some(rows)
  {
    if |rows| > 0 {
      var init, last := rows[..|rows| - 1], rows[|rows| - 1];
      var before := BodyPieces(init);
      var row := before + [RowOpen] + DataCells(last);
      assert BodyPieces(rows) == row + [RowClose];
      Snoc(row, RowClose);
      TrailingCellsOfRow(before, last);
      Snoc(before, RowOpen);
      ParseBodyRoundTrip(init);
      InitLast(rows);
    }
  }

  /**
   * The HTML page of a record set: the caption states the number of
   * records, and the body pieces read back as one row per record holding
   * that record's shown values in its own order.
   */
  lemma HtmlPage(information: RecordSet)
    ensures var t := HtmlTable(information);
      && t.total == |information|
      && ParseBody(BodyPieces(t.rows)) == Some(ShownRows(Mappings(information)))
      && |t.rows| == |information|
      && forall i :: 0 <= i < |information| ==> |t.rows[i]| == |FromPairs(information[i])|
  {
    ParseBodyRoundTrip(HtmlTable(information).rows);
  }

  /** With no records the page has an empty header, an empty body and the count 0. */
  lemma HtmlEmpty()
    ensures RenderTable(HtmlTable([])) == HtmlTop + "0" + HeadOpen + HeadClose + HtmlBottom
  {
    assert NatToString(0) == "0";
    assert HeadCells([]) == [];
  }

  /**
   * When every record has the first record's keys, every row has exactly
   * one cell per header cell; a record with other keys is shown under the
   * first record's header all the same.
   */
  lemma HtmlTableRectangular(information: RecordSet)
    requires forall i :: 0 <= i < |information| ==> Keys(information[i]) == Keys(information[0])
    ensures var t := HtmlTable(information);
      forall i :: 0 <= i < |t.rows| ==> |t.rows[i]| == |t.head|
  {
    var t := HtmlTable(information);
    forall i | 0 <= i < |t.rows| ensures |t.rows[i]| == |t.head| {
      assert |Keys(FromPairs(information[i]))| == |Keys(FromPairs(information[0]))|;
    }
  }

  // ---------------------------------------------------------------- Text

  /** The lines of the text report. */
  datatype TextLine = Banner | TotalLine(n: nat) | RuleLine | FieldLine(name: string, text: string) | BlankLine

  const Rule: string := "------------------------------------------------\n"

  function LineText(l: TextLine): string {
    match l
    case Banner => "**********  Output in TEXT Format  ************* \n\n"
    case TotalLine(n) => "Total inputs received :  " + NatToString(n) + " \n"
    case RuleLine => Rule
    case FieldLine(name, text) => "\t" + name + "\t\t=\t" + text + " \n"
    case BlankLine => "\n"
  }

  /** The report text of a list of lines. */
  function RenderLines(ls: seq<TextLine>): string {
    if |ls| == 0 then "" else RenderLines(ls[..|ls| - 1]) + LineText(ls[|ls| - 1])
  }

  /** Writing one more line appends its text. */
  lemma RenderSnoc(ls: seq<TextLine>, l: TextLine)
    ensures RenderLines(ls + [l]) == RenderLines(ls) + LineText(l)
  {
    assert (ls + [l])[..|ls|] == ls;
  }

  /** One field line per field of a record, in order. */
  function FieldLines(r: Record): (ls: seq<TextLine>)
    ensures |ls| == |r| && forall j :: 0 <= j < |r| ==> ls[j] == FieldLine(r[j].0, Show(r[j].1))
  {
    seq(|r|, j requires 0 <= j < |r| => FieldLine(r[j].0, Show(r[j].1)))
  }

  /** A record's block: its field lines, a blank line and a rule. */
  function Block(r: Record): seq<TextLine> {
    FieldLines(r) + [BlankLine, RuleLine]
  }

  function Blocks(rs: RecordSet): seq<TextLine> {
    if |rs| == 0 then [] else Block(rs[0]) + Blocks(rs[1..])
  }

  /** The report: banner, entry count, a rule, then one block per record. */
  function TextLines(information: RecordSet): seq<TextLine> {
    [Banner, TotalLine(|information|), RuleLine] + Blocks(Mappings(information))
  }

  /** The blocks of a longer prefix are those of the shorter one and one block more. */
  lemma {:induction false} BlocksSnoc(rs: RecordSet, i: int)
    requires 0 <= i < |rs|
    ensures Blocks(rs[..i + 1]) == Blocks(rs[..i]) + Block(rs[i])
  {
    if i > 0 {
      var rest := rs[1..];
      assert rs[..i + 1][1..] == rest[..i];
      assert rs[..i][1..] == rest[..i - 1];
      assert rest[i - 1] == rs[i];
      BlocksSnoc(rest, i - 1);
    } else {
      assert rs[..1][1..] == [];
    }
  }

  /**
   * `TextExporter.convert_data2string`: the banner, the count and a rule,
   * then per record its field lines, a blank line and a rule.
   */
  method TextConvert(information: RecordSet) returns (s: string)
    ensures s == RenderLines(TextLines(information))
  {
    ghost var rs := Mappings(information);
    ghost var top := [Banner, TotalLine(|information|), RuleLine];
    ghost var lines: seq<TextLine> := top;
    s := LineText(Banner) + LineText(TotalLine(|information|)) + LineText(RuleLine);
    RenderThree(Banner, TotalLine(|information|), RuleLine);
    Ends(rs);
    Ends(top);
    for i := 0 to |information|
      invariant s == RenderLines(lines)
      invariant lines == top + Blocks(rs[..i])
    {
      var each := FromPairs(information[i]);
      s := RecordText(each, s, lines);
      BlocksSnoc(rs, i);
      Assoc(top, Blocks(rs[..i]), Block(each));
      lines := lines + Block(each);
    }
  }

  /** The text of three lines. */
  lemma RenderThree(a: TextLine, b: TextLine, c: TextLine)
    ensures RenderLines([a, b, c]) == LineText(a) + LineText(b) + LineText(c)
  {
    var one, two := [a], [a, b];
    Ends(one);
    RenderSnoc([], a);
    Ends(LineText(a));
    assert RenderLines(one) == LineText(a);
    RenderSnoc(one, b);
    assert one + [b] == two;
    assert RenderLines(two) == LineText(a) + LineText(b);
    RenderSnoc(two, c);
    assert two + [c] == [a, b, c];
  }

  /**
   * The inner loop of `TextExporter.convert_data2string` for one record,
   * with the blank line and the rule after it: the text of the record's
   * block appended to the report written so far.
   */
  method RecordText(each: Record, prefix: string, ghost done: seq<TextLine>) returns (s: string)
    requires prefix == RenderLines(done)
    ensures s == RenderLines(done + Block(each))
  {
    s := prefix;
    ghost var lines := done;
    for j := 0 to |each|
      invariant s == RenderLines(lines)
      invariant lines == done + FieldLines(each)[..j]
    {
      var line := FieldLine(each[j].0, Show(each[j].1));
      RenderSnoc(lines, line);
      PushSlice(done, FieldLines(each), j);
      s, lines := s + LineText(line), lines + [line];
    }
    SliceAll(done, FieldLines(each));
    RenderSnoc(lines, BlankLine);
    s, lines := s + LineText(BlankLine), lines + [BlankLine];
    RenderSnoc(lines, RuleLine);
    s, lines := s + LineText(RuleLine), lines + [RuleLine];
    AppendTwo(done, FieldLines(each), BlankLine, RuleLine);
  }

  /** How many rule lines a list of lines holds. */
  function Rules(ls: seq<TextLine>): nat {
    if |ls| == 0 then 0 else (if ls[0].RuleLine? then 1 else 0) + Rules(ls[1..])
  }

  lemma {:induction false} RulesAppend(a: seq<TextLine>, b: seq<TextLine>)
    ensures Rules(a + b) == Rules(a) + Rules(b)
  {
    if |a| > 0 {
      assert (a + b)[1..] == a[1..] + b;
      RulesAppend(a[1..], b);
    } else {
      assert a + b == b;
    }
  }

  /** The report draws one rule under the count and one under each record: n + 1 in all. */
  lemma {:induction false} TextRuleCount(information: RecordSet)
    ensures Rules(TextLines(information)) == |information| + 1
  {
    var top := [Banner, TotalLine(|information|), RuleLine];
    RulesAppend(top, Blocks(Mappings(information)));
    TopRules(top);
    BlocksRules(Mappings(information));
  }

  lemma TopRules(top: seq<TextLine>)
    requires |top| == 3 && !top[0].RuleLine? && !top[1].RuleLine? && top[2].RuleLine?
    ensures Rules(top) == 1
  {
    assert Rules(top[2..]) == 1 by {
      assert top[2..][1..] == [];
    }
    assert top[1..][1..] == top[2..];
  }

  lemma {:induction false} BlocksRules(rs: RecordSet)
    ensures Rules(Blocks(rs)) == |rs|
  {
    if |rs| > 0 {
      BlocksRules(rs[1..]);
      RulesAppend(Block(rs[0]), Blocks(rs[1..]));
      RulesAppend(FieldLines(rs[0]), [BlankLine, RuleLine]);
      FieldLinesNoRules(FieldLines(rs[0]));
      assert [BlankLine, RuleLine][1..] == [RuleLine];
      assert [RuleLine][1..] == [];
    }
  }

  lemma {:induction false} FieldLinesNoRules(ls: seq<TextLine>)
    requires forall k :: 0 <= k < |ls| ==> ls[k].FieldLine?
    ensures Rules(ls) == 0
  {
    if |ls| > 0 {
      FieldLinesNoRules(ls[1..]);
    }
  }

  /** A record as the report shows it: each field name with its shown value. */
  type ShownRecord = seq<(string, string)>

  function ShownFields(r: Record): (sr: ShownRecord)
    ensures |sr| == |r| && forall j :: 0 <= j < |r| ==> sr[j] == (r[j].0, Show(r[j].1))
  {
    seq(|r|, j requires 0 <= j < |r| => (r[j].0, Show(r[j].1)))
  }

  /** The field lines at the start of a list of lines, and what follows them. */
  function TakeFields(ls: seq<TextLine>): (res: (ShownRecord, seq<TextLine>))
    ensures |res.1| <= |ls|
  {
    if |ls| == 0 || !ls[0].FieldLine? then ([], ls)
    else
      var (fs, rest) := TakeFields(ls[1..]);
      ([(ls[0].name, ls[0].text)] + fs, rest)
  }

  /** Reads the record blocks back: fields up to a blank line and a rule, repeatedly. */
  function ParseBlocks(ls: seq<TextLine>): Option<seq<ShownRecord>>
    decreases |ls|
  {
    if |ls| == 0 then Some([])
    else
      var (fs, rest) := TakeFields(ls);
      if |rest| < 2 || rest[0] != BlankLine || rest[1] != RuleLine then None
      else
        match ParseBlocks(rest[2..])
        case None => None
        case Some(more) => Some([fs] + more)
  }

  /** Reads a report back: the count it states and the records it lists. */
  function ParseText(ls: seq<TextLine>): Option<(nat, seq<ShownRecord>)> {
    if |ls| < 3 || ls[0] != Banner || !ls[1].TotalLine? || ls[2] != RuleLine then None
    else
      match ParseBlocks(ls[3..])
      case None => None
      case Some(records) => Some((ls[1].n, records))
  }

  lemma {:induction false} TakeFieldsOfBlock(fs: seq<TextLine>, rest: seq<TextLine>, sr: ShownRecord)
    requires |fs| == |sr|
    requires forall k :: 0 <= k < |fs| ==> fs[k] == FieldLine(sr[k].0, sr[k].1)
    requires |rest| > 0 && !rest[0].FieldLine?
    ensures TakeFields(fs + rest) == (sr, rest)
  {
    if |fs| > 0 {
      assert (fs + rest)[1..] == fs[1..] + rest;
      TakeFieldsOfBlock(fs[1..], rest, sr[1..]);
      assert sr == [sr[0]] + sr[1..];
    } else {
      assert fs + rest == rest;
    }
  }

  /** Every record of a record set as the report shows it. */
  function ShownAll(rs: RecordSet): (srs: seq<ShownRecord>)
    ensures |srs| == |rs|
    ensures forall i :: 0 <= i < |rs| ==> srs[i] == ShownFields(rs[i])
  {
    if |rs| == 0 then [] else [ShownFields(rs[0])] + ShownAll(rs[1..])
  }

  lemma {:induction false} ParseBlocksRoundTrip(rs: RecordSet)
    ensures ParseBlocks(Blocks(rs)) == Some(ShownAll(rs))
  {
    if |rs| > 0 {
      var tail := Blocks(rs[1..]);
      assert Blocks(rs) == FieldLines(rs[0]) + ([BlankLine, RuleLine] + tail);
      TakeFieldsOfBlock(FieldLines(rs[0]), [BlankLine, RuleLine] + tail, ShownFields(rs[0]));
      assert ([BlankLine, RuleLine] + tail)[2..] == tail;
      ParseBlocksRoundTrip(rs[1..]);
    }
  }

  /**
   * The text report can be read back: it states the number of records and
   * lists every record, field by field with its shown value, in order. A
   * record without repeated keys is listed with exactly its own fields.
   */
  lemma TextRoundTrip(information: RecordSet)
    ensures ParseText(TextLines(information)) == Some((|information|, ShownAll(Mappings(information))))
    ensures forall i :: 0 <= i < |information| && UniqueKeys(information[i]) ==>
      ShownAll(Mappings(information))[i] == ShownFields(information[i])
  {
    var ls := TextLines(information);
    assert ls[3..] == Blocks(Mappings(information));
    ParseBlocksRoundTrip(Mappings(information));
    forall i | 0 <= i < |information| && UniqueKeys(information[i])
      ensures FromPairs(information[i]) == information[i]
    {
      FromPairsOfMapping(information[i]);
    }
  }

  // -------------------------------------------------------------- Export

  /** The two exporters. */
  datatype Format = Html | Text

  function Extension(f: Format): string {
    match f
    case Html => ".html"
    case Text => ".txt"
  }

  /** `EXPORT_FILE_NAME`: `display_output` with the format's extension. */
  function ExportFileName(f: Format): (name: string)
    ensures EndsWith(name, Extension(f))
  {
    var name := OutputFileName + Extension(f);
    assert name[|name| - |Extension(f)|..] == Extension(f);
    name
  }

  /** `Exporter.export_path`: the export file name inside the output directory. */
  function ExportPath(f: Format, cfg: Config): (p: string)
    ensures |OutputDirectory(cfg)| <= |p| && p[..|OutputDirectory(cfg)|] == OutputDirectory(cfg)
    ensures EndsWith(p, ExportFileName(f))
    ensures EndsWith(p, Extension(f))
  {
    assert ExportFileName(f)[0] == 'd';
    var p := Join(OutputDirectory(cfg), ExportFileName(f));
    JoinEndsWithName(OutputDirectory(cfg), ExportFileName(f));
    EndsWithTrans(p, ExportFileName(f), Extension(f));
    p
  }

  /** The text a format renders for a record set. */
  function Rendered(f: Format, information: RecordSet): string {
    match f
    case Html => RenderTable(HtmlTable(information))
    case Text => RenderLines(TextLines(information))
  }

  /** Iterating over `None` raises `TypeError`. */
  datatype ExportError = NotIterable

  /**
   * `convert_data2string(data)`: renders `data or self.get_context()`.
   * The context is `None` when `build_context` found nothing to build.
   */
  method Convert(f: Format, data: Option<RecordSet>, context: Option<RecordSet>)
    returns (r: Result<string, ExportError>)
    ensures data.Some? && data.value != [] ==> r == Success(Rendered(f, data.value))
    ensures (data.None? || data.value == []) && context.Some? ==> r == Success(Rendered(f, context.value))
    ensures (data.None? || data.value == []) && context.None? ==> r == Failure(NotIterable)
  {
    var information := if data.Some? && data.value != [] then data else context;
    if information.None? {
      return Failure(NotIterable);
    }
    var s;
    match f {
      case Html => s := HtmlConvert(information.value);
      case Text => s := TextConvert(information.value);
    }
    return Success(s);
  }

  /** A file the exporter writes: where, and what. */
  datatype Artifact = Artifact(path: string, contents: string)

  /**
   * `export(filePath, data)`: the target is `filePath or self.export_path`;
   * a target without the format's extension gives `None` before anything is
   * rendered; otherwise the file holds `data`, or the rendered context when
   * no data is given. The default target always has the right extension.
   */
  method Export(f: Format, cfg: Config, context: Option<RecordSet>, filePath: Option<string>, data: Option<string>)
    returns (r: Result<Option<Artifact>, ExportError>)
    ensures var target := if Given(filePath) then filePath.value else ExportPath(f, cfg);
      && (!EndsWith(target, Extension(f)) <==> r == Success(None))
      && (EndsWith(target, Extension(f)) && Given(data) ==> r == Success(Some(Artifact(target, data.value))))
      && (EndsWith(target, Extension(f)) && !Given(data) && context.Some? ==>
            r == Success(Some(Artifact(target, Rendered(f, context.value)))))
      && (EndsWith(target, Extension(f)) && !Given(data) && context.None? ==> r == Failure(NotIterable))
    ensures !Given(filePath) ==> r != Success(None)
  {
    var target := if Given(filePath) then filePath.value else ExportPath(f, cfg);
    if !ValidateFilePath(Some(target), Some(Extension(f)), Skip) {
      return Success(None);
    }
    if Given(data) {
      return Success(Some(Artifact(target, data.value)));
    }
    var contents := Convert(f, None, context);
    match contents {
      case Failure(e) => return Failure(e);
      case Success(s) => return Success(Some(Artifact(target, s)));
    }
  }
}

=== FILE: parser.dfy ===
/**
 * The input side of `scripts/parser.py`: which user fields enter the
 * information mapping, when the template or an external CSV file is used,
 * and how a record set is assembled from a mapping or from CSV rows.
 */
module Parser {
  import opened Wrappers
  import opened Strings
  import opened Records
  import opened Seqs
  import opened Config
  import opened Common

  /**
   * The parsed command line. Absent flags are `None`; argparse's defaults
   * (`frames=1`, `artist="Unassigned"`) are applied before this point.
   */
  datatype Inputs = Inputs(
    sequence: Option<string>,
    shot: Option<string>,
    frames: Option<int>,
    artist: Option<string>,
    useTemplateData: bool,
    externalFile: Option<string>)

  /** The exception the source raises when it reads an attribute that does not exist. */
  datatype AttributeError = AttributeError(name: string)

  /** Python truthiness of a field value. */
  predicate Truthy(v: Value) {
    match v
    case Str(s) => s != ""
    case Int(i) => i != 0
  }

  /** `validate_string`: a field is accepted when it is present and non-empty. */
  function ValidateString(s: Option<string>): (ok: bool)
    ensures ok <==> s.Some? && |s.value| > 0
  {
    Given(s)
  }

  /** `str(value)` of an optional integer. */
  function PyStr(v: Option<int>): string {
    if v.None? then "None" else IntToString(v.value)
  }

  /** `validate_int`: `str(value).isdigit()`, true exactly for present non-negative integers. */
  function ValidateInt(v: Option<int>): (ok: bool)
    ensures ok <==> v.Some? && v.value >= 0
  {
    if v.Some? then
      IntToStringIsDigits(v.value);
      IsDigits(PyStr(v))
    else
      assert PyStr(v)[0] == 'N';
      IsDigits(PyStr(v))
  }

  /** `all([sequence, shot, frames, artist])`: every one of the four is truthy. */
  function AllFieldsGiven(inputs: Inputs): (all: bool)
    ensures all ==> (ValidateString(inputs.sequence) && ValidateString(inputs.shot) && ValidateString(inputs.artist))
    ensures (ValidateString(inputs.sequence) && ValidateString(inputs.shot) && ValidateString(inputs.artist)
      && inputs.frames.Some?) ==> (all <==> inputs.frames.value != 0)
    ensures all ==> inputs.frames.Some? && (ValidateInt(inputs.frames) <==> inputs.frames.value > 0)
  {
    Given(inputs.sequence) && Given(inputs.shot)
    && inputs.frames.Some? && inputs.frames.value != 0
    && Given(inputs.artist)
  }

  /** Template mode: asked for, or forced because one of the four fields is missing. */
  function TemplateMode(inputs: Inputs): (template: bool)
    ensures !template ==> (ValidateString(inputs.sequence) && ValidateString(inputs.shot)
      && ValidateString(inputs.artist) && inputs.frames.Some?)
    ensures inputs.useTemplateData ==> template
    ensures AllFieldsGiven(inputs) && !inputs.useTemplateData ==> !template
  {
    inputs.useTemplateData || !AllFieldsGiven(inputs)
  }

  /**
   * The file `validate` considers reading: the template database in template
   * mode, else the user's external file when one was given. This is the
   * corrected reading of the source, which takes the user's path from an
   * attribute that does not exist (see `ExternalFileAsWritten`).
   */
  function ExternalFile(inputs: Inputs, cfg: Config): (f: Option<string>)
    ensures f.Some? ==> f.value != ""
  {
    if TemplateMode(inputs) then Some(TemplateDatabase(cfg))
    else if Given(inputs.externalFile) then inputs.externalFile
    else None
  }

  /** The same decision as written: the user's path is read from `inputs.externalFilePath`. */
  function ExternalFileAsWritten(inputs: Inputs, cfg: Config): (r: Result<Option<string>, AttributeError>)
    ensures r.Failure? ==> r.error == AttributeError("externalFilePath")
    ensures r.Success? && r.value.Some? ==> r.value.value == TemplateDatabase(cfg)
  {
    if TemplateMode(inputs) then Success(Some(TemplateDatabase(cfg)))
    else if Given(inputs.externalFile) then Failure(AttributeError("externalFilePath"))
    else Success(None)
  }

  /**
   * As written, `validate` raises exactly when the user supplied all four
   * fields and an external file without asking for the template; in every
   * other case it agrees with the corrected `ExternalFile`.
   */
  lemma ExternalFileAsWrittenRaises(inputs: Inputs, cfg: Config)
    ensures ExternalFileAsWritten(inputs, cfg).Failure? <==>
      AllFieldsGiven(inputs) && !inputs.useTemplateData && Given(inputs.externalFile)
    ensures ExternalFileAsWritten(inputs, cfg).Success? ==>
      ExternalFileAsWritten(inputs, cfg).value == ExternalFile(inputs, cfg)
  {
  }

  /** A concrete command line that makes the source raise, and what the corrected code uses. */
  lemma ExternalFileAsWrittenExample(cfg: Config)
    ensures var inputs := Inputs(Some("A20"), Some("sh500"), Some(167), Some("Josh"), false, Some("shots.csv"));
      ExternalFileAsWritten(inputs, cfg) == Failure(AttributeError("externalFilePath"))
      && ExternalFile(inputs, cfg) == Some("shots.csv")
  {
  }

  /**
   * Template mode takes precedence: whatever external file the user names
   * is ignored, and a missing field forces the template even when the user
   * did not ask for it.
   */
  lemma TemplateTakesPrecedence(inputs: Inputs, cfg: Config, other: Option<string>)
    ensures TemplateMode(inputs) ==>
      ExternalFile(inputs, cfg) == ExternalFile(inputs.(externalFile := other), cfg) == Some(TemplateDatabase(cfg))
    ensures !AllFieldsGiven(inputs) ==>
      ExternalFile(inputs.(useTemplateData := false), cfg) == Some(TemplateDatabase(cfg))
  {
  }

  /** The keys `validate` may add, in the order it adds them. */
  const FieldOrder: seq<string> := ["sequence", "shot", "frames", "artist", "filePath"]

  /** The names among `names` that `r` holds a value for, in the order of `names`. */
  function Present(names: seq<string>, r: Record): seq<string> {
    if |names| == 0 then []
    else (if Lookup(r, names[0]).Some? then [names[0]] else []) + Present(names[1..], r)
  }

  /** A key `validate` considers, with the value to store when its check passed. */
  type Candidate = (string, Option<Value>)

  /**
   * `if <check>: information[k] = value` for each candidate in turn, as
   * `OrderedDict` assignments on the mapping `r`.
   */
  function PutAll(r: Record, cs: seq<Candidate>): (r': Record)
    ensures UniqueKeys(r) ==> UniqueKeys(r')
    ensures |r| <= |r'| && Keys(r')[..|r|] == Keys(r)
    decreases |cs|
  {
    if |cs| == 0 then
      Ends(Keys(r));
      r
    else
      var next := if cs[0].1.Some? then Put(r, cs[0].0, cs[0].1.value) else r;
      AssignStep(r, cs[0]);
      var out := PutAll(next, cs[1..]);
      PrefixOfPrefix(Keys(out), Keys(next), Keys(r));
      out
  }

  /** One conditional assignment keeps the existing keys in place and keeps them unique. */
  lemma AssignStep(r: Record, c: Candidate)
    ensures var next := if c.1.Some? then Put(r, c.0, c.1.value) else r;
      |r| <= |next| && Keys(next)[..|r|] == Keys(r) && (UniqueKeys(r) ==> UniqueKeys(next))
  {
    if c.1.Some? {
      if UniqueKeys(r) {
        PutUnique(r, c.0, c.1.value);
      }
      PrefixOfAppend(Keys(r), if c.0 in Keys(r) then [] else [c.0]);
    } else {
      Ends(Keys(r));
    }
  }

  /** The fields the accepted candidates contribute, in candidate order. */
  function Assigned(cs: seq<Candidate>): Record {
    if |cs| == 0 then []
    else (if cs[0].1.Some? then [(cs[0].0, cs[0].1.value)] else []) + Assigned(cs[1..])
  }

  /**
   * When the candidate keys are distinct and none is in the mapping yet,
   * every assignment adds a new key at the end: the assignments append
   * exactly the accepted fields, in candidate order.
   */
  lemma {:induction false} PutAllAssigned(r: Record, cs: seq<Candidate>)
    requires NoDuplicates(CandidateNames(cs))
    requires forall i :: 0 <= i < |cs| ==> cs[i].0 !in Keys(r)
    ensures PutAll(r, cs) == r + Assigned(cs)
    decreases |cs|
  {
    if |cs| == 0 {
      Ends(r);
    } else {
      var head: Record := if cs[0].1.Some? then [(cs[0].0, cs[0].1.value)] else [];
      var r' := if cs[0].1.Some? then Put(r, cs[0].0, cs[0].1.value) else r;
      if cs[0].1.Some? {
        assert r' == r + head;
      } else {
        Ends(r);
      }
      assert Keys(r') == Keys(r) + Keys(head);
      forall i | 0 <= i < |cs[1..]| ensures cs[1..][i].0 !in Keys(r') {
        assert cs[1..][i] == cs[i + 1];
      }
      PutAllAssigned(r', cs[1..]);
      Assoc(r, head, Assigned(cs[1..]));
    }
  }

  /** A lookup in a record with one field, or none, in front. */
  lemma LookupCons(f: Field, r: Record, k: string)
    ensures Lookup([f] + r, k) == if f.0 == k then Some(f.1) else Lookup(r, k)
  {
    assert ([f] + r)[1..] == r;
  }

  /** Each candidate's key reads back the value it was given, or nothing. */
  lemma {:induction false} AssignedLookup(cs: seq<Candidate>, i: int)
    requires NoDuplicates(CandidateNames(cs))
    requires 0 <= i < |cs|
    ensures Lookup(Assigned(cs), cs[i].0) == cs[i].1
  {
    var tail := Assigned(cs[1..]);
    if cs[0].1.Some? {
      assert Assigned(cs) == [(cs[0].0, cs[0].1.value)] + tail;
      LookupCons((cs[0].0, cs[0].1.value), tail, cs[i].0);
    } else {
      assert Assigned(cs) == tail;
    }
    if i == 0 {
      if cs[0].1.None? {
        AssignedMissing(cs[1..], cs[0].0);
      }
    } else {
      assert cs[1..][i - 1] == cs[i];
      AssignedLookup(cs[1..], i - 1);
    }
  }

  /** A key that no candidate names is not in the mapping. */
  lemma {:induction false} AssignedMissing(cs: seq<Candidate>, k: string)
    requires forall i :: 0 <= i < |cs| ==> cs[i].0 != k
    ensures Lookup(Assigned(cs), k) == None
  {
    if |cs| > 0 {
      AssignedMissing(cs[1..], k);
      if cs[0].1.Some? {
        LookupCons((cs[0].0, cs[0].1.value), Assigned(cs[1..]), k);
      }
    }
  }

  /** The mapping's keys are the accepted candidates' keys, in candidate order. */
  lemma {:induction false} AssignedKeys(cs: seq<Candidate>)
    requires NoDuplicates(CandidateNames(cs))
    ensures Keys(Assigned(cs)) == Present(CandidateNames(cs), Assigned(cs))
  {
    if |cs| > 0 {
      var r := Assigned(cs);
      var tail := Assigned(cs[1..]);
      AssignedKeys(cs[1..]);
      AssignedLookup(cs, 0);
      assert CandidateNames(cs)[1..] == CandidateNames(cs[1..]);
      if cs[0].1.Some? {
        var f := (cs[0].0, cs[0].1.value);
        assert r == [f] + tail;
        KeysCons(f, tail);
        forall i | 0 <= i < |cs[1..]| ensures Lookup(r, cs[1..][i].0) == Lookup(tail, cs[1..][i].0) {
          assert cs[1..][i] == cs[i + 1];
          LookupCons(f, tail, cs[1..][i].0);
        }
      } else {
        assert r == tail;
      }
      PresentAgrees(cs[1..], r, tail);
    }
  }

  /** The names of the candidates, in order. */
  function CandidateNames(cs: seq<Candidate>): (ns: seq<string>)
    ensures |ns| == |cs| && forall i :: 0 <= i < |cs| ==> ns[i] == cs[i].0
  {
    if |cs| == 0 then [] else [cs[0].0] + CandidateNames(cs[1..])
  }

  /**
   * Two records that agree on the lookups of the later candidates select
   * the same names from them.
   */
  lemma {:induction false} PresentAgrees(cs: seq<Candidate>, r: Record, tail: Record)
    requires forall i :: 0 <= i < |cs| ==> Lookup(r, cs[i].0) == Lookup(tail, cs[i].0)
    ensures Present(CandidateNames(cs), r) == Present(CandidateNames(cs), tail)
  {
    if |cs| > 0 {
      assert CandidateNames(cs)[1..] == CandidateNames(cs[1..]);
      PresentAgrees(cs[1..], r, tail);
    }
  }

  /** With distinct keys the assignments never overwrite, so no key repeats. */
  lemma {:induction false} AssignedUnique(cs: seq<Candidate>)
    requires NoDuplicates(CandidateNames(cs))
    ensures UniqueKeys(Assigned(cs))
  {
    if |cs| > 0 {
      var tail := Assigned(cs[1..]);
      AssignedUnique(cs[1..]);
      if cs[0].1.Some? {
        AssignedMissing(cs[1..], cs[0].0);
        KeysCons((cs[0].0, cs[0].1.value), tail);
        assert forall j :: 0 <= j < |tail| ==> Keys(tail)[j] != cs[0].0 by {
          forall j | 0 <= j < |tail| ensures Keys(tail)[j] != cs[0].0 {
            assert Keys(tail)[j] in Keys(tail);
          }
        }
      }
    }
  }

  /** The value a string field contributes: the string when `validate_string` accepts it. */
  function StringEntry(s: Option<string>): (v: Option<Value>)
    ensures v == if Given(s) then Some(Str(s.value)) else None
  {
    if ValidateString(s) then Some(Str(s.value)) else None
  }

  /** The value the frame count contributes: the integer when `validate_int` accepts it. */
  function FramesEntry(frames: Option<int>): (v: Option<Value>)
    ensures v == if frames.Some? && frames.value >= 0 then Some(Int(frames.value)) else None
  {
    if ValidateInt(frames) then Some(Int(frames.value)) else None
  }

  /** The `filePath` entry: the candidate file when it has the `.csv` suffix and exists. */
  function FileEntry(f: Option<string>, isFile: string -> bool): (v: Option<Value>)
    ensures v == if f.Some? && EndsWith(f.value, ".csv") && isFile(f.value) then Some(Str(f.value)) else None
  {
    if f.Some? && ValidateFilePath(f, Some(".csv"), Against(isFile)) then Some(Str(f.value)) else None
  }

  /** The five keys of `validate`, in order, with the values their checks produced. */
  function FieldCandidates(sequence: Option<Value>, shot: Option<Value>, frames: Option<Value>,
                           artist: Option<Value>, filePath: Option<Value>): (cs: seq<Candidate>)
    ensures |cs| == |FieldOrder| && forall i :: 0 <= i < |cs| ==> cs[i].0 == FieldOrder[i]
    ensures NoDuplicates(CandidateNames(cs))
  {
    [("sequence", sequence), ("shot", shot), ("frames", frames), ("artist", artist), ("filePath", filePath)]
  }

  /** The five checks of `validate`, in the order it makes them. */
  function Candidates(inputs: Inputs, cfg: Config, isFile: string -> bool): seq<Candidate> {
    FieldCandidates(StringEntry(inputs.sequence), StringEntry(inputs.shot), FramesEntry(inputs.frames),
                    StringEntry(inputs.artist), FileEntry(ExternalFile(inputs, cfg), isFile))
  }

  /**
   * `UserInputs.validate`: the information mapping. Each of sequence, shot
   * and artist enters when non-empty, frames when `str(frames)` is all
   * digits, and `filePath` when the file chosen by `ExternalFile` has the
   * `.csv` suffix and exists. No key repeats.
   */
  function Validate(inputs: Inputs, cfg: Config, isFile: string -> bool): (info: Record)
    ensures UniqueKeys(info)
    ensures Lookup(info, "sequence") == if Given(inputs.sequence) then Some(Str(inputs.sequence.value)) else None
    ensures Lookup(info, "shot") == if Given(inputs.shot) then Some(Str(inputs.shot.value)) else None
    ensures Lookup(info, "frames") ==
      if inputs.frames.Some? && inputs.frames.value >= 0 then Some(Int(inputs.frames.value)) else None
    ensures Lookup(info, "artist") == if Given(inputs.artist) then Some(Str(inputs.artist.value)) else None
    ensures Lookup(info, "filePath") ==
      var f := ExternalFile(inputs, cfg);
      if f.Some? && EndsWith(f.value, ".csv") && isFile(f.value) then Some(Str(f.value)) else None
  {
    var cs := Candidates(inputs, cfg, isFile);
    PutAllAssigned([], cs);
    Ends(Assigned(cs));
    AssignedUnique(cs);
    AssignedLookup(cs, 0);
    AssignedLookup(cs, 1);
    AssignedLookup(cs, 2);
    AssignedLookup(cs, 3);
    AssignedLookup(cs, 4);
    PutAll([], cs)
  }

  /**
   * The keys of the information mapping are exactly the accepted fields,
   * in the fixed order sequence, shot, frames, artist, filePath.
   */
  lemma ValidateKeyOrder(inputs: Inputs, cfg: Config, isFile: string -> bool)
    ensures var info := Validate(inputs, cfg, isFile);
      Keys(info) == Present(FieldOrder, info)
  {
    var cs := Candidates(inputs, cfg, isFile);
    PutAllAssigned([], cs);
    Ends(Assigned(cs));
    AssignedKeys(cs);
    assert CandidateNames(cs) == FieldOrder;
  }

  /** `OrderedDict(zip(header, row))` for each data row after the header row. */
  function RowsToRecords(header: Row, body: seq<Row>): (rs: RecordSet)
    ensures |rs| == |body|
    ensures forall i :: 0 <= i < |body| ==> UniqueKeys(rs[i])
  {
    seq(|body|, i requires 0 <= i < |body| => FromPairs(Zip(header, body[i])))
  }

  /**
   * With a header that repeats no name, the record built from a row pairs
   * header j with cell j, positionally, and stops at the shorter of the two.
   */
  lemma CsvRecordShape(header: Row, row: Row)
    requires NoDuplicates(header)
    ensures var r := FromPairs(Zip(header, row));
      && |r| == (if |header| <= |row| then |header| else |row|)
      && forall j :: 0 <= j < |r| ==> r[j] == (header[j], Str(row[j]))
  {
    var z := Zip(header, row);
    assert UniqueKeys(z) by {
      forall i, j | 0 <= i < j < |z| ensures z[i].0 != z[j].0 {
        assert z[i].0 == header[i] && z[j].0 == header[j];
      }
    }
    FromPairsOfMapping(z);
  }

  /**
   * `UserInputs.build_data_container`: with a truthy `filePath` the rows of
   * that CSV file become records, the first row naming the fields; without
   * one the mapping itself is the only record.
   */
  function BuildDataContainer(data: Record, disk: Disk): (r: Result<RecordSet, ReadError>)
    requires UniqueKeys(data)
    ensures Lookup(data, "filePath").None? || !Truthy(Lookup(data, "filePath").value) ==> r == Success([data])
    ensures var f := Lookup(data, "filePath");
      f.Some? && f.value.Str? && f.value.s != "" ==>
      var path := f.value.s;
      (!disk.opens(path) ==> r == Failure(CannotOpen(path)))
      && (disk.opens(path) && disk.rows(path) == [] ==> r == Success([]))
      && (disk.opens(path) && disk.rows(path) != [] ==>
            r.Success? && |r.value| == |disk.rows(path)| - 1
            && forall i :: 0 <= i < |r.value| ==>
                 r.value[i] == FromPairs(Zip(disk.rows(path)[0], disk.rows(path)[i + 1])))
  {
    var fileToRead := Lookup(data, "filePath");
    if fileToRead.Some? && Truthy(fileToRead.value) then
      match fileToRead.value
      case Int(_) => Failure(NotAPath)
      case Str(path) =>
        match ReadCsv(disk, Some(path))
        case Failure(e) => Failure(e)
        case Success(rows) =>
          if rows == [] then Success([])
          else Success(RowsToRecords(rows[0], rows[1..]))
    else
      FromPairsOfMapping(data);
      Success([FromPairs(data)])
  }

  /** The mapping `build_context` works from: the first non-empty of the three candidates. */
  function ChosenInformation(given: Option<Record>, stored: Option<Record>, validated: Record): (r: Record)
    ensures r == [] <==> (given.None? || given.value == []) && (stored.None? || stored.value == []) && validated == []
    ensures given.Some? && given.value != [] ==> r == given.value
    ensures r == validated || (given.Some? && r == given.value) || (stored.Some? && r == stored.value)
  {
    if given.Some? && given.value != [] then given.value
    else if stored.Some? && stored.value != [] then stored.value
    else validated
  }

  /**
   * `UserInputs.build_context`: `information or self._information or
   * self.validate()`; no record set (`None`) when that mapping is empty.
   */
  function BuildContext(given: Option<Record>, stored: Option<Record>, validated: Record, disk: Disk)
    : (r: Result<Option<RecordSet>, ReadError>)
    requires given.Some? ==> UniqueKeys(given.value)
    requires stored.Some? ==> UniqueKeys(stored.value)
    requires UniqueKeys(validated)
    ensures r == Success(None) <==>
      (given.None? || given.value == []) && (stored.None? || stored.value == []) && validated == []
    ensures given.Some? && given.value != [] ==>
      match BuildDataContainer(given.value, disk)
      case Success(rs) => r == Success(Some(rs))
      case Failure(e) => r == Failure(e)
    ensures (given.None? || given.value == []) && stored.Some? && stored.value != [] ==>
      match BuildDataContainer(stored.value, disk)
      case Success(rs) => r == Success(Some(rs))
      case Failure(e) => r == Failure(e)
    ensures (given.None? || given.value == []) && (stored.None? || stored.value == []) && validated != [] ==>
      match BuildDataContainer(validated, disk)
      case Success(rs) => r == Success(Some(rs))
      case Failure(e) => r == Failure(e)
  {
    var information := ChosenInformation(given, stored, validated);
    if information == [] then Success(None)
    else
      match BuildDataContainer(information, disk)
      case Success(rs) => Success(Some(rs))
      case Failure(e) => Failure(e)
  }

  /**
   * `validate` only adds `filePath` for a path `os.path.isfile` accepted, so
   * building the record set from what it returns fails only when that
   * regular file then cannot be opened; without a `filePath` the record set
   * is the validated mapping alone.
   */
  lemma ValidatedInformationIsReadable(inputs: Inputs, cfg: Config, disk: Disk)
    ensures var info := Validate(inputs, cfg, disk.isFile);
      var r := BuildDataContainer(info, disk);
      match Lookup(info, "filePath")
      case None => r == Success([info])
      case Some(v) => v.Str? && disk.isFile(v.s) && (r.Success? <==> disk.opens(v.s))
  {
    var info := Validate(inputs, cfg, disk.isFile);
    var f := ExternalFile(inputs, cfg);
    if f.Some? && EndsWith(f.value, ".csv") && disk.isFile(f.value) {
      assert Lookup(info, "filePath") == Some(Str(f.value));
    }
  }

  /**
   * The behaviour the source evidently intends for a user's file: with all
   * four fields given and no template requested, an existing `.csv` file
   * the user names becomes the `filePath` entry.
   */
  lemma UserFileIsUsed(inputs: Inputs, cfg: Config, isFile: string -> bool)
    requires AllFieldsGiven(inputs) && !inputs.useTemplateData && Given(inputs.externalFile)
    requires EndsWith(inputs.externalFile.value, ".csv") && isFile(inputs.externalFile.value)
    ensures Lookup(Validate(inputs, cfg, isFile), "filePath") == Some(Str(inputs.externalFile.value))
  {
  }

  /**
   * The record set the test data builds: a mapping without `filePath`
   * becomes a one-element record set holding that mapping.
   */
  lemma SingleMappingExample(disk: Disk)
    ensures var data := [("sequence", Str("A20")), ("shot", Str("sh500")), ("frames", Int(167)), ("artist", Str("Josh"))];
      BuildDataContainer(data, disk) == Success([data])
  {
    var data := [("sequence", Str("A20")), ("shot", Str("sh500")), ("frames", Int(167)), ("artist", Str("Josh"))];
    assert "filePath" !in Keys(data);
  }

  /** A four-column header that repeats no name, zipped with a four-cell row. */
  lemma FourColumnRecord(header: Row, row: Row)
    requires NoDuplicates(header) && |header| == 4 && |row| == 4
    ensures FromPairs(Zip(header, row))
      == [(header[0], Str(row[0])), (header[1], Str(row[1])), (header[2], Str(row[2])), (header[3], Str(row[3]))]
  {
    var r := FromPairs(Zip(header, row));
    CsvRecordShape(header, row);
    Four(r, (header[0], Str(row[0])), (header[1], Str(row[1])), (header[2], Str(row[2])), (header[3], Str(row[3])));
  }

  /** The record built from the example CSV header and row pairs each header name with its cell. */
  lemma CsvRowExample(header: Row, row: Row)
    requires header == ["sequence", "shot", "frames", "artist"]
    requires row == ["A20", "sh500", "167", "Josh"]
    ensures FromPairs(Zip(header, row))
      == [("sequence", Str("A20")), ("shot", Str("sh500")), ("frames", Str("167")), ("artist", Str("Josh"))]
  {
    assert NoDuplicates(header);
    FourColumnRecord(header, row);
  }

  /** A file with a header row and one data row yields the one record built from them. */
  lemma OneDataRow(data: Record, disk: Disk, path: string)
    requires UniqueKeys(data) && Lookup(data, "filePath") == Some(Str(path)) && path != ""
    requires disk.opens(path) && |disk.rows(path)| == 2
    ensures BuildDataContainer(data, disk) == Success([FromPairs(Zip(disk.rows(path)[0], disk.rows(path)[1]))])
  {
    var rs := BuildDataContainer(data, disk);
    assert rs.Success? && |rs.value| == 1;
    Single(rs.value);
  }

  /** A CSV file with a header row and one data row yields one record of strings. */
  lemma CsvExample(disk: Disk)
    requires disk.opens("shots.csv")
    requires disk.rows("shots.csv") == [["sequence", "shot", "frames", "artist"], ["A20", "sh500", "167", "Josh"]]
    ensures BuildDataContainer([("filePath", Str("shots.csv"))], disk)
      == Success([[("sequence", Str("A20")), ("shot", Str("sh500")), ("frames", Str("167")), ("artist", Str("Josh"))]])
  {
    var data: Record := [("filePath", Str("shots.csv"))];
    var rows := disk.rows("shots.csv");
    assert Lookup(data, "filePath") == Some(Str("shots.csv"));
    OneDataRow(data, disk, "shots.csv");
    CsvRowExample(rows[0], rows[1]);
  }
}

=== FILE: records.dfy ===
/**
 * Records and record sets: the ordered mappings (`OrderedDict`) the
 * application passes between its parser, serializers and exporters.
 *
 * A record is a sequence of (field name, value) pairs. An `OrderedDict`
 * never holds a key twice; `Put` and `FromPairs` model how one is built,
 * including what happens to a key that is assigned twice.
 */
module Records {
  import opened Wrappers
  import opened Seqs

  /** The scalar values a field can hold. */
  datatype Value = Str(s: string) | Int(i: int)

  type Field = (string, Value)
  type Record = seq<Field>
  type RecordSet = seq<Record>

  /** The field names of a record, in order. */
  function Keys(r: Record): (ks: seq<string>)
    ensures |ks| == |r|
    ensures forall i :: 0 <= i < |r| ==> ks[i] == r[i].0
  {
    seq(|r|, i requires 0 <= i < |r| => r[i].0)
  }

  /** The keys of a record with one more field in front. */
  lemma KeysCons(f: Field, r: Record)
    ensures Keys([f] + r) == [f.0] + Keys(r)
  {
  }

  /** No element occurs twice. */
  predicate NoDuplicates(xs: seq<string>) {
    forall i, j :: 0 <= i < j < |xs| ==> xs[i] != xs[j]
  }

  /** No field name occurs twice: the invariant of every Python mapping. */
  predicate UniqueKeys(r: Record) {
    NoDuplicates(Keys(r))
  }

  /** Appending a name not yet present keeps a sequence free of duplicates. */
  lemma NoDuplicatesAppend(xs: seq<string>, x: string)
    requires NoDuplicates(xs) && x !in xs
    ensures NoDuplicates(xs + [x])
  {
  }

  /** `mapping.get(k)`: the value of the first field named `k`, or `None`. */
  function Lookup(r: Record, k: string): (v: Option<Value>)
    ensures v.None? <==> k !in Keys(r)
  {
    assert |r| > 0 ==> Keys(r) == [r[0].0] + Keys(r[1..]);
    if |r| == 0 then None
    else if r[0].0 == k then Some(r[0].1)
    else Lookup(r[1..], k)
  }

  /** In a record with unique keys the field at index `i` is the one `Lookup` finds. */
  lemma {:induction false} LookupAt(r: Record, i: int)
    requires UniqueKeys(r)
    requires 0 <= i < |r|
    ensures Lookup(r, r[i].0) == Some(r[i].1)
  {
    if i > 0 {
      assert Keys(r)[0] != Keys(r)[i];
      assert Keys(r[1..]) == Keys(r)[1..];
      LookupAt(r[1..], i - 1);
    }
  }

  /**
   * `d[k] = v` on an `OrderedDict`: an existing key keeps its position and
   * takes the new value; a new key is appended at the end.
   */
  function Put(r: Record, k: string, v: Value): (r': Record)
    ensures Keys(r') == if k in Keys(r) then Keys(r) else Keys(r) + [k]
    ensures k !in Keys(r) ==> r' == r + [(k, v)]
  {
    if |r| == 0 then [(k, v)]
    else
      KeysCons(r[0], r[1..]);
      if r[0].0 == k then
        KeysCons((k, v), r[1..]);
        [(k, v)] + r[1..]
      else
        var tail := Put(r[1..], k, v);
        KeysCons(r[0], tail);
        assert k !in Keys(r) ==> [r[0]] + (r[1..] + [(k, v)]) == r + [(k, v)];
        [r[0]] + tail
  }

  /** After `d[k] = v`, `d.get(k)` is `v` and every other key reads as before. */
  lemma {:induction false} PutLookup(r: Record, k: string, v: Value, k': string)
    ensures Lookup(Put(r, k, v), k') == if k' == k then Some(v) else Lookup(r, k')
  {
    if |r| > 0 && r[0].0 != k {
      PutLookup(r[1..], k, v, k');
      assert Put(r, k, v) == [r[0]] + Put(r[1..], k, v);
      assert ([r[0]] + Put(r[1..], k, v))[1..] == Put(r[1..], k, v);
    }
  }

  /** Assigning a key keeps the keys of a mapping unique. */
  lemma PutUnique(r: Record, k: string, v: Value)
    requires UniqueKeys(r)
    ensures UniqueKeys(Put(r, k, v))
  {
    if k !in Keys(r) {
      NoDuplicatesAppend(Keys(r), k);
    }
  }

  /** The value the LAST pair for `k` carries; that is the one a dict keeps. */
  function LastValue(ps: seq<Field>, k: string): Option<Value>
  {
    if |ps| == 0 then None
    else if ps[|ps| - 1].0 == k then Some(ps[|ps| - 1].1)
    else LastValue(ps[..|ps| - 1], k)
  }

  /** The names in `ks` with repeats dropped, each at its first occurrence. */
  function Distinct(ks: seq<string>): seq<string>
  {
    if |ks| == 0 then []
    else
      var d := Distinct(ks[..|ks| - 1]);
      if ks[|ks| - 1] in d then d else d + [ks[|ks| - 1]]
  }

  /**
   * `OrderedDict(pairs)`: the pairs are assigned left to right, so the
   * result never repeats a key and lists the keys in order of first
   * occurrence (see `FromPairsLookup` for the values).
   */
  function FromPairs(ps: seq<Field>): (r: Record)
    ensures UniqueKeys(r)
    ensures Keys(r) == Distinct(Keys(ps))
  {
    if |ps| == 0 then []
    else
      var init := ps[..|ps| - 1];
      assert Keys(init) == Keys(ps)[..|ps| - 1];
      PutUnique(FromPairs(init), ps[|ps| - 1].0, ps[|ps| - 1].1);
      Put(FromPairs(init), ps[|ps| - 1].0, ps[|ps| - 1].1)
  }

  /** Each key of `OrderedDict(pairs)` holds the value of the last pair with that key. */
  lemma {:induction false} FromPairsLookup(ps: seq<Field>, k: string)
    ensures Lookup(FromPairs(ps), k) == LastValue(ps, k)
  {
    if |ps| > 0 {
      var init, last := ps[..|ps| - 1], ps[|ps| - 1];
      FromPairsLookup(init, k);
      PutLookup(FromPairs(init), last.0, last.1, k);
    }
  }

  /** Dropping the last field of a mapping leaves a mapping without that field's name. */
  lemma UniqueKeysInit(ps: seq<Field>)
    requires UniqueKeys(ps) && |ps| > 0
    ensures UniqueKeys(ps[..|ps| - 1])
    ensures ps[|ps| - 1].0 !in Keys(ps[..|ps| - 1])
  {
    var init := ps[..|ps| - 1];
    assert Keys(init) == Keys(ps)[..|ps| - 1];
    forall i | 0 <= i < |init| ensures Keys(init)[i] != ps[|ps| - 1].0 {
      assert Keys(ps)[i] != Keys(ps)[|ps| - 1];
    }
  }

  /** Pairs that already have unique keys come out of `OrderedDict` unchanged. */
  lemma {:induction false} FromPairsOfMapping(ps: seq<Field>)
    requires UniqueKeys(ps)
    ensures FromPairs(ps) == ps
  {
    if |ps| > 0 {
      var init, last := ps[..|ps| - 1], ps[|ps| - 1];
      UniqueKeysInit(ps);
      FromPairsOfMapping(init);
      assert FromPairs(ps) == Put(init, last.0, last.1);
      assert (last.0, last.1) == last;
      InitLast(ps);
    }
  }

  /** `zip(names, cells)`: positional pairs, cut to the shorter input; cells are strings. */
  function Zip(names: seq<string>, cells: seq<string>): (ps: seq<Field>)
    ensures |ps| == if |names| <= |cells| then |names| else |cells|
    ensures forall j :: 0 <= j < |ps| ==> ps[j] == (names[j], Str(cells[j]))
  {
    if |names| == 0 || |cells| == 0 then []
    else [(names[0], Str(cells[0]))] + Zip(names[1..], cells[1..])
  }
}

=== FILE: seqs.dfy ===
/**
 * Facts about sequences of any element type. Stated once over `seq<T>`,
 * they spare the proofs about records and rendered text from comparing
 * strings character by character.
 */
module Seqs {

  /** Extending a prefix of `xs` by its next element. */
  lemma PushSlice<T>(done: seq<T>, xs: seq<T>, j: int)
    requires 0 <= j < |xs|
    ensures (done + xs[..j]) + [xs[j]] == done + xs[..j + 1]
  {
    assert xs[..j + 1] == xs[..j] + [xs[j]];
  }

  /** The whole of `xs` as a prefix. */
  lemma SliceAll<T>(done: seq<T>, xs: seq<T>)
    ensures done + xs[..|xs|] == done + xs
  {
    assert xs[..|xs|] == xs;
  }

  /** A prefix one longer ends with the next element. */
  lemma SlicePrefix<T>(xs: seq<T>, i: int)
    requires 0 <= i < |xs|
    ensures xs[..i + 1][..i] == xs[..i] && xs[..i + 1][i] == xs[i]
  {
  }

  /** A sequence with one more element: its prefix and its last element. */
  lemma Snoc<T>(xs: seq<T>, x: T)
    ensures (xs + [x])[..|xs|] == xs && (xs + [x])[|xs|] == x && |xs + [x]| == |xs| + 1
  {
  }

  /** A non-empty sequence is its prefix followed by its last element. */
  lemma InitLast<T>(xs: seq<T>)
    requires |xs| > 0
    ensures xs[..|xs| - 1] + [xs[|xs| - 1]] == xs
  {
  }

  /** Appending a run and then two elements, regrouped. */
  lemma AppendTwo<T>(a: seq<T>, c: seq<T>, x: T, y: T)
    ensures a + c + [x] + [y] == a + (c + [x, y])
  {
  }

  /** Concatenation is associative. */
  lemma Assoc<T>(a: seq<T>, b: seq<T>, c: seq<T>)
    ensures a + b + c == a + (b + c)
  {
  }

  /** The empty and the whole prefix of a sequence, and appending nothing. */
  lemma Ends<T>(xs: seq<T>)
    ensures xs[..0] == [] && xs[..|xs|] == xs && xs + [] == xs && [] + xs == xs
  {
  }

  /** A sequence is the prefix of itself followed by anything. */
  lemma PrefixOfAppend<T>(xs: seq<T>, ys: seq<T>)
    ensures (xs + ys)[..|xs|] == xs
  {
  }

  /** A prefix of a prefix is a prefix. */
  lemma PrefixOfPrefix<T>(xs: seq<T>, ys: seq<T>, zs: seq<T>)
    requires |ys| <= |xs| && xs[..|ys|] == ys
    requires |zs| <= |ys| && ys[..|zs|] == zs
    ensures xs[..|zs|] == zs
  {
    assert forall i :: 0 <= i < |zs| ==> xs[i] == ys[i];
  }

  /** A sequence of one element. */
  lemma Single<T>(xs: seq<T>)
    requires |xs| == 1
    ensures xs == [xs[0]]
  {
  }

  /** A sequence of four elements, given element by element. */
  lemma Four<T>(xs: seq<T>, a: T, b: T, c: T, d: T)
    requires |xs| == 4 && xs[0] == a && xs[1] == b && xs[2] == c && xs[3] == d
    ensures xs == [a, b, c, d]
  {
  }
}

=== FILE: strings.dfy ===
/**
 * The string operations the application relies on: `str.endswith`,
 * `str(int)` and `str.isdigit` (Python 2 byte strings, so ASCII digits).
 */
module Strings {

  /** `s.endswith(suffix)`: exact, case-sensitive comparison of the tail. */
  predicate EndsWith(s: string, suffix: string) {
    |suffix| <= |s| && s[|s| - |suffix|..] == suffix
  }

  predicate IsDigitChar(c: char) {
    '0' <= c <= '9'
  }

  /** `s.isdigit()`: false on the empty string, else every character is a digit. */
  predicate IsDigits(s: string) {
    |s| > 0 && forall i :: 0 <= i < |s| ==> IsDigitChar(s[i])
  }

  function DigitChar(d: nat): (c: char)
    requires d < 10
    ensures IsDigitChar(c)
  {
    (d + '0' as int) as char
  }

  function DigitValue(c: char): (d: nat)
    requires IsDigitChar(c)
    ensures d < 10
  {
    c as int - '0' as int
  }

  /** Decimal notation of a natural number, without leading zeros. */
  function NatToString(n: nat): (s: string)
    ensures IsDigits(s)
    ensures s[0] == '0' ==> n == 0 && |s| == 1
  {
    if n < 10 then [DigitChar(n)]
    else NatToString(n / 10) + [DigitChar(n % 10)]
  }

  /** The number a string of decimal digits denotes. */
  function DigitsValue(s: string): nat
    requires forall i :: 0 <= i < |s| ==> IsDigitChar(s[i])
  {
    if |s| == 0 then 0
    else DigitsValue(s[..|s| - 1]) * 10 + DigitValue(s[|s| - 1])
  }

  /** Reading the decimal notation back gives the number that was written. */
  lemma {:induction false} NatToStringRoundTrip(n: nat)
    ensures DigitsValue(NatToString(n)) == n
  {
    var s := NatToString(n);
    if n < 10 {
      assert DigitsValue(s) == DigitsValue(s[..0]) * 10 + DigitValue(s[0]);
    } else {
      NatToStringRoundTrip(n / 10);
      assert s[..|s| - 1] == NatToString(n / 10);
    }
  }

  /** `str(i)`: a minus sign before the digits of a negative number. */
  function IntToString(i: int): (s: string)
    ensures |s| > 0 && (s[0] == '-' <==> i < 0)
    ensures forall j :: (if i < 0 then 1 else 0) <= j < |s| ==> IsDigitChar(s[j])
  {
    if i < 0 then "-" + NatToString(-i) else NatToString(i)
  }

  /** The integer a `str(int)` string denotes. */
  function IntValue(s: string): int
  {
    if |s| > 0 && s[0] == '-' && forall i :: 1 <= i < |s| ==> IsDigitChar(s[i]) then
      -(DigitsValue(s[1..]) as int)
    else if forall i :: 0 <= i < |s| ==> IsDigitChar(s[i]) then
      DigitsValue(s)
    else 0
  }

  /** `str(int)` loses nothing: the integer can be read back from it. */
  lemma IntToStringRoundTrip(i: int)
    ensures IntValue(IntToString(i)) == i
  {
    var s := IntToString(i);
    if i < 0 {
      NatToStringRoundTrip(-i);
      assert s[1..] == NatToString(-i);
    } else {
      NatToStringRoundTrip(i);
      assert !IsDigitChar('-');
    }
  }

  /** `str(i).isdigit()` holds exactly for the non-negative integers. */
  lemma IntToStringIsDigits(i: int)
    ensures IsDigits(IntToString(i)) <==> i >= 0
  {
    if i < 0 {
      assert IntToString(i)[0] == '-';
    }
  }
}

=== FILE: wrappers.dfy ===
/** Failure-compatible wrappers used for Python's `None` results and raised exceptions. */
module Wrappers {

  /** A value that may be absent (Python's `None`). */
  datatype Option<+T> = None | Some(value: T)

  /** Either a computed value or the exception the computation raises. */
  datatype Result<+R, +E> = Success(value: R) | Failure(error: E)
}
